=== FILE: README.md ===
# CPong simulation core in Dafny

A model of the game logic of CPong, a two-paddle Pong written in C on SDL2:
the paddle move with its clamp, the per-frame ball step (integration, wall
bounce, paddle bounce, serve reset), the fixed key-to-move mapping of the
main loop, and the frame-rate meter and frame-delay arithmetic that pace
the loop. Everything is a pure function over immutable records; the loop
itself appears both as a recursive function, `Session.Run`, which is the
reference definition of the `while (running)` loop, and as a `while`
method, `Session.RunSession`, proved to agree with it.

Files, one module each:

- `arena.dfy` (`Arena`): the `#define` constants, including `FrameDelayMs == 1000 / 60 == 16`.
- `paddles.dfy` (`Paddles`): `Paddle`, `MovePaddle`, and sequences of moves.
- `ball.dfy` (`BallPhysics`): `Ball`, the four stages of `move_ball`, and `MoveBall`.
- `input.dfy` (`InputMapper`): the key snapshot `Keys`, the move requests it stands for, and `ApplyKeys`.
- `pacer.dfy` (`FramePacer`): 32-bit tick arithmetic, the rate meter `FpsTick`, and `FrameDelay`.
- `session.dfy` (`Session`): one loop iteration `Step`, the loop `Run`/`RunSession`, and the session invariant `Valid`.

Quirks of the C code that the model keeps on purpose:

- The clamp and the collision tests use the configured sizes `PADDLE_HEIGHT`, `PADDLE_WIDTH` and `BALL_SIZE`. They never read the `w`, `h` and `size` fields (`MoveBallIgnoresSize`, `MoveBallIgnoresPaddleSize`).
- The two paddle tests are independent and unordered. Either one flips `dx`, and a flip happens at most once per frame.
- No position is corrected after a bounce. Reachable balls stay between the top and bottom walls only because every position lies on the 5-pixel grid of the serve position (`MoveBallKeepsGrid`). Off that grid, a ball at `y == 0` moving up is trapped against the top wall (`TopWallTrap`). A ball that reaches `x == 775` beside the right paddle shuffles between `x == 770` and `x == 775` (`RightPaddleTrap`), and one that reaches `x == 15` beside the left paddle shuffles between `x == 15` and `x == 20` (`LeftPaddleTrap`).
- The serve takes the sign of `dx` after the paddle flip, and a zero component becomes negative.
- With W and S both held, each move is clamped before the next one. A paddle at the top wall therefore ends one step lower (`OpposedLeftKeys`).
- Q and a window-close event only clear the running flag. The rest of that frame still runs.

Two details of the pacing code:

- When a rate window closes, the new window starts at a fresh clock reading (`fps_timer = SDL_GetTicks()`), not at the tick that closed the old one. The model does not keep this: it uses one reading for both (see "Left out").
- A frame that takes 16 ms or more makes no `SDL_Delay` call at all. The model returns `NoDelay` for it.

## Model

| member | source | states |
|---|---|---|
| Paddles.MovePaddle | SourceCode.c:25-29 | after any move, `0 <= y <= 500` whatever the start and direction. `x`, `w`, `h` are unchanged. A target already in range is taken exactly, and targets beyond a wall land on that wall |
| Paddles.MovePaddleIsNearest | SourceCode.c:26-28 | the clamped `y` is the in-range position nearest to `y + direction*10` |
| Paddles.MovePaddlesInBounds | SourceCode.c:25-29 | for any sequence of moves, the paddle ends in range if it started in range or made at least one move |
| Paddles.PinnedAtTop | SourceCode.c:26-27 | any number of upward pushes leaves a paddle at `y == 0` pinned there |
| Paddles.PinnedAtBottom | SourceCode.c:26-28 | any number of downward pushes leaves a paddle at `y == 500` pinned there |
| BallPhysics.ServeComponent | SourceCode.c:50-51 | a serve component has magnitude 5 and is positive exactly when the current component is positive; zero becomes -5 |
| BallPhysics.MoveBall | SourceCode.c:31-53 | no serve: the position is exactly the integrated one, and each velocity component either keeps or reverses its value. `dy` reverses iff the wall test holds, and `dx` reverses iff the left or the right paddle test holds. Serve: the ball goes to `(395, 295)` with speed 5 on both axes. Each serve component is positive exactly when that component is positive after the wall and paddle bounces. Always `0 <= x <= 800`, the size is unchanged, and speed 5 on both axes is preserved |
| BallPhysics.MoveBallIgnoresSize | SourceCode.c:36-47 | the ball's `size` field has no influence on its motion |
| BallPhysics.MoveBallIgnoresPaddleSize | SourceCode.c:41-42 | the paddles' `w` and `h` fields have no influence on the ball |
| BallPhysics.ServeAfterMissKeepsDirection | SourceCode.c:41-52 | a ball that leaves the arena without passing a paddle test is served in the direction it left |
| BallPhysics.MoveBallKeepsGrid | SourceCode.c:31-52 | a ball on the 5-pixel serve grid with speed 5 stays on it. It never overlaps the top or bottom wall, and it leaves any wall it touches |
| BallPhysics.TopWallBounce | SourceCode.c:32-38 | at `y == 0` with `dy == -5`, one step gives `y == -5` and `dy == +5` |
| BallPhysics.BottomWallBounce | SourceCode.c:32-38 | at `y == 590` with `dy == +5`, one step gives `y == 595` and `dy == -5` |
| BallPhysics.TopWallTrap | SourceCode.c:32-38 | from `y == 0` moving up, two steps return to `y == 0` moving up, because no position is corrected |
| BallPhysics.LeftPaddleExample | SourceCode.c:41-43 | with the left paddle at `(10, 250)`, a ball at `(20, 280)` with `dx == -5` and either `dy == 5` or `dy == -5` turns right |
| BallPhysics.RightPaddleTrap | SourceCode.c:41-43 | a speed-5 ball going from `x == 770` to `x == 775` beside the right paddle passes the right test again after bouncing. Its `dx` flips on both frames, so it is back at `x == 770` moving right, with `y` moved by `2*dy`, while the paddle overlaps it and no wall is hit |
| BallPhysics.LeftPaddleTrap | SourceCode.c:41-43 | a speed-5 ball going from `x == 20` to `x == 15` beside the left paddle passes the left test again after bouncing. Its `dx` flips on both frames, so it is back at `x == 20` moving left, with `y` moved by `2*dy`, while the paddle overlaps it and no wall is hit |
| BallPhysics.ServeExample | SourceCode.c:47-52 | a ball crossing the right wall is served from `(395, 295)` with `dx == +5`, and `dy` keeps its sign after the wall test |
| InputMapper.Requests | SourceCode.c:140-143 | requests appear in the order the keys are tested, W, S, UP, DOWN, each at most once. There are at most four, and each moves one step up or down |
| InputMapper.RequestsMembers | SourceCode.c:140-143 | each of W, S, UP, DOWN yields its move request exactly when held |
| InputMapper.ApplyKeys | SourceCode.c:140-143 | the sequential key tests equal applying the snapshot's requests in order. Paddles in range stay in range, and `x`, `w`, `h` are kept |
| InputMapper.SidesIndependent | SourceCode.c:140-143 | the left keys never change the right paddle, and the right keys never change the left paddle |
| InputMapper.OpposedLeftKeys | SourceCode.c:140-141 | W and S together take an in-range `y` to `max(y, 10)`: interior positions stay, `y == 0` becomes 10 |
| InputMapper.OpposedKeysOrderMatters | SourceCode.c:140-141 | at `y == 500`, W then S stays at 500, while S then W would end at 490 |
| FramePacer.Elapsed | SourceCode.c:164 | the `Uint32` difference equals `now - since` without wrap, and `now - since + 2^32` across a wrap |
| FramePacer.FpsTick | SourceCode.c:163-168 | after a second or more, the count including this frame is published, the count resets to 0 and the window restarts at `now`. Otherwise only the count grows, by one |
| FramePacer.FpsCountsWindow | SourceCode.c:163-168 | a window that opens with `c` frames counted and closes on the `n`-th following frame publishes `c + n` and restarts at that frame's tick |
| FramePacer.SixtyFramesPublishSixty | SourceCode.c:163-168 | sixty frames from a fresh meter, the last a second or more after the start, publish 60 and reset the count to 0 |
| FramePacer.FrameDelay | SourceCode.c:170-173 | a sleep happens iff the frame took under 16 ms. It then lasts between 1 and 16 ms and fills the frame to exactly 16 ms |
| FramePacer.PacedDurationIsMax | SourceCode.c:170-173 | a paced frame lasts `max(frame time, 16)` ms |
| Session.Initial | SourceCode.c:119-128 | the starting session is running and satisfies the session invariant |
| Session.Step | SourceCode.c:130-173 | the frame stops the session iff a quit event or Q arrived. The paddles move from the keys before the ball steps against the moved paddles. The rate meter takes the frame's counting tick, and the delay comes from the frame's start and end ticks; any sleep is 1 to 16 ms. The invariant is preserved |
| Session.QuitOnlyClearsRunning | SourceCode.c:144-146 | Q changes nothing in a frame except the running flag |
| Session.RunPreservesValid | SourceCode.c:130-174 | every state the loop reaches from a valid one is valid |
| Session.QuitEndsLoop | SourceCode.c:130-146 | a frame with a quit event or Q is the last one, and its ball step still happens |
| Session.RunWithoutQuit | SourceCode.c:130-144 | with no quit input, the loop is still running after every frame |
| Session.RunSession | SourceCode.c:130-174 | the `while (running)` loop reaches the same state as `Run` and preserves the invariant. A stopped session runs no frame. Otherwise the loop stops exactly after the first frame with a quit event or Q, or when input runs out, and records each frame's delay |

## Left out

- SDL and SDL_ttf start-up, window, renderer and font creation, and their failure and cleanup paths (SourceCode.c:81-117, 176-182). These are calls into foreign libraries.
- `render_fps` and all drawing (SourceCode.c:55-78, 148-161). They only render; no state they compute feeds back into the game.
- Event and keyboard polling (SourceCode.c:133-139). They become the `quitEvent` flag and the `Keys` snapshot of each `FrameInput`.
- `SDL_GetTicks` and `SDL_Delay`: tick values are inputs, and the sleep is returned as a `Delay` instead of performed.
- Session.Step: the code reads the clock separately on line 164 and line 167. The model uses one reading, `countNow`, for both, so a tick landing between the two reads is not modelled.
- `SCORE_BAR_HEIGHT` (SourceCode.c:8): it is declared but never used.
- C `int` overflow of positions, `fps` and `frame_count`. Reachable values are small, and Dafny integers are unbounded. Only the `Uint32` tick subtraction wraps in the model.
- Session.Run: a session is modelled over a finite sequence of frame inputs. A loop that never quits is not modelled as an infinite run.
- BallPhysics.MoveBall: the "flips exactly when" clauses are stated for non-zero velocity components only, because negating zero changes nothing.

=== FILE: arena.dfy ===
/**
 The fixed geometry and pacing constants of the Pong arena. Every
 operation of the simulation reads these values rather than the fields of
 the paddle and ball records (the collision tests in particular use the
 configured paddle and ball sizes, not the sizes stored in the records).
 */
module Arena {

  const ScreenWidth: int := 800
  const ScreenHeight: int := 600
  const PaddleWidth: int := 10
  const PaddleHeight: int := 100
  const BallSize: int := 10
  const PaddleSpeed: int := 10
  const BallSpeed: int := 5
  const TargetFps: int := 60

  /** Target frame duration in milliseconds; integer division makes it 16, not 16.67. */
  const FrameDelayMs: int := 1000 / TargetFps

  /** Highest `y` a paddle may take: its bottom edge then touches the lower wall. */
  const MaxPaddleY: int := ScreenHeight - PaddleHeight

  /** Highest `y` a ball may take without overlapping the lower wall. */
  const MaxBallY: int := ScreenHeight - BallSize

  function Abs(n: int): (r: nat)
    ensures r == n || r == -n
  {
    if n < 0 then -n else n
  }
}

=== FILE: ball.dfy ===
/**
 Ball physics and collision resolution for one frame: integrate the
 position, bounce off the top and bottom walls, bounce off either paddle,
 and serve again from the centre when the ball leaves the arena sideways.
 */
module BallPhysics {
  import opened Arena
  import opened Paddles

  /** The ball: top-left corner, velocity per frame, and its drawn size. */
  datatype Ball = Ball(x: int, y: int, dx: int, dy: int, size: int)

  /** The centre position a serve restarts from. */
  const ServeX: int := ScreenWidth / 2 - BallSize / 2
  const ServeY: int := ScreenHeight / 2 - BallSize / 2

  /** Both velocity components have the configured ball speed as magnitude. */
  predicate ServeSpeed(b: Ball) {
    Abs(b.dx) == BallSpeed && Abs(b.dy) == BallSpeed
  }

  /** A ball whose top edge is at `y` touches or crosses the top or bottom wall. */
  predicate WallHit(y: int) {
    y <= 0 || y + BallSize >= ScreenHeight
  }

  /** The ball's left edge has reached the left paddle's right edge while they overlap vertically. */
  predicate LeftPaddleHit(x: int, y: int, left: Paddle) {
    x <= left.x + PaddleWidth && y + BallSize >= left.y && y <= left.y + PaddleHeight
  }

  /** The ball's right edge has reached the right paddle's left edge while they overlap vertically. */
  predicate RightPaddleHit(x: int, y: int, right: Paddle) {
    x + BallSize >= right.x && y + BallSize >= right.y && y <= right.y + PaddleHeight
  }

  /** Either of the two independent paddle tests holds for a ball at `(x, y)`. */
  predicate PaddleHit(x: int, y: int, left: Paddle, right: Paddle) {
    LeftPaddleHit(x, y, left) || RightPaddleHit(x, y, right)
  }

  /** The ball's left edge lies beyond either side wall. */
  predicate OutOfArena(x: int) {
    x < 0 || x > ScreenWidth
  }

  /** The serve velocity component for the current one: positive stays positive, zero or negative becomes negative. */
  function ServeComponent(v: int): (r: int)
    ensures Abs(r) == BallSpeed
    ensures r > 0 <==> v > 0
  {
    (if v > 0 then 1 else -1) * BallSpeed
  }

  /** Stage 1: add the velocity to the position. */
  function Integrate(b: Ball): Ball {
    b.(x := b.x + b.dx, y := b.y + b.dy)
  }

  /** Stage 2: negate `dy` on a wall hit, leaving the position where it is. */
  function WallBounce(b: Ball): Ball {
    if WallHit(b.y) then b.(dy := -b.dy) else b
  }

  /** Stage 3: negate `dx` once if either of the two independent paddle tests holds. */
  function PaddleBounce(b: Ball, left: Paddle, right: Paddle): Ball {
    if PaddleHit(b.x, b.y, left, right) then b.(dx := -b.dx) else b
  }

  /** Stage 4: serve from the centre when the ball has left the arena sideways. */
  function ServeReset(b: Ball): Ball {
    if OutOfArena(b.x) then
      b.(x := ServeX, y := ServeY, dx := ServeComponent(b.dx), dy := ServeComponent(b.dy))
    else b
  }

  /**
   One frame of ball motion. Collisions are judged on the position after
   integration; the position is never corrected after a bounce, and a serve
   takes the signs of the velocity as it stands after both bounces.
   */
  function MoveBall(b: Ball, left: Paddle, right: Paddle): (r: Ball)
    ensures r.size == b.size
    ensures 0 <= r.x <= ScreenWidth
    ensures Abs(r.dx) == Abs(b.dx) || Abs(r.dx) == BallSpeed
    ensures Abs(r.dy) == Abs(b.dy) || Abs(r.dy) == BallSpeed
    ensures ServeSpeed(b) ==> ServeSpeed(r)
    // no serve: the position is exactly the integrated one
    ensures !OutOfArena(b.x + b.dx) ==> r.x == b.x + b.dx && r.y == b.y + b.dy
    // no serve: dy flips exactly on a wall hit, dx exactly on a paddle hit
    ensures !OutOfArena(b.x + b.dx) && b.dy != 0 ==>
              (r.dy == -b.dy <==> WallHit(b.y + b.dy))
    ensures !OutOfArena(b.x + b.dx) && b.dx != 0 ==>
              (r.dx == -b.dx <==> PaddleHit(b.x + b.dx, b.y + b.dy, left, right))
    // no serve: each velocity component keeps or reverses its value, nothing else
    ensures !OutOfArena(b.x + b.dx) ==> (r.dx == b.dx || r.dx == -b.dx) && (r.dy == b.dy || r.dy == -b.dy)
    // serve: centre position, unit-speed velocity
    ensures OutOfArena(b.x + b.dx) ==> r.x == ServeX && r.y == ServeY && ServeSpeed(r)
    // serve: each sign is the one the velocity has after the wall and paddle bounces
    ensures OutOfArena(b.x + b.dx) ==>
              (r.dx > 0 <==> (if PaddleHit(b.x + b.dx, b.y + b.dy, left, right) then -b.dx else b.dx) > 0)
    ensures OutOfArena(b.x + b.dx) ==>
              (r.dy > 0 <==> (if WallHit(b.y + b.dy) then -b.dy else b.dy) > 0)
  {
    ServeReset(PaddleBounce(WallBounce(Integrate(b)), left, right))
  }

  /** The ball's size field never influences its motion: only the configured size is used. */
  lemma MoveBallIgnoresSize(b: Ball, left: Paddle, right: Paddle, size: int)
    ensures MoveBall(b.(size := size), left, right) == MoveBall(b, left, right).(size := size)
  {
  }

  /** Neither paddle's `w`, `h` fields influence the ball: only the configured paddle size is used. */
  lemma MoveBallIgnoresPaddleSize(b: Ball, left: Paddle, right: Paddle, lw: int, lh: int, rw: int, rh: int)
    ensures MoveBall(b, left.(w := lw, h := lh), right.(w := rw, h := rh)) == MoveBall(b, left, right)
  {
  }

  /**
   A serve keeps the direction the ball had after the paddle test: a ball
   leaving on the left without touching a paddle is served towards the left
   again, since no score or server side is kept.
   */
  lemma ServeAfterMissKeepsDirection(b: Ball, left: Paddle, right: Paddle)
    requires ServeSpeed(b)
    requires OutOfArena(b.x + b.dx)
    requires !LeftPaddleHit(b.x + b.dx, b.y + b.dy, left) && !RightPaddleHit(b.x + b.dx, b.y + b.dy, right)
    ensures MoveBall(b, left, right).dx == b.dx
  {
  }

  /**
   A ball on the 5-pixel grid of the serve position, inside the arena and
   moving away from any wall it touches. Every serve and every step from
   such a ball stay in this set.
   */
  predicate OnGrid(b: Ball) {
    && ServeSpeed(b)
    && 0 <= b.x <= ScreenWidth
    && 0 <= b.y <= MaxBallY
    && b.y % BallSpeed == 0
    && (b.y == 0 ==> b.dy == BallSpeed)
    && (b.y == MaxBallY ==> b.dy == -BallSpeed)
  }

  /**
   A ball that starts on the grid never overlaps the top or bottom wall:
   without any positional correction, the grid alignment alone makes every
   wall hit land exactly on the wall.
   */
  lemma MoveBallKeepsGrid(b: Ball, left: Paddle, right: Paddle)
    requires OnGrid(b)
    ensures OnGrid(MoveBall(b, left, right))
  {
  }

  /** A ball on the top wall moving up: the step takes it to `y == -5` and turns it downwards. */
  lemma TopWallBounce(x: int, left: Paddle, right: Paddle)
    requires 0 <= x + BallSpeed <= ScreenWidth
    ensures var r := MoveBall(Ball(x, 0, BallSpeed, -BallSpeed, BallSize), left, right);
            r.y == -BallSpeed && r.dy == BallSpeed
  {
  }

  /** A ball on the bottom wall moving down: the step takes it below `MaxBallY` and turns it upwards. */
  lemma BottomWallBounce(x: int, left: Paddle, right: Paddle)
    requires 0 <= x + BallSpeed <= ScreenWidth
    ensures var r := MoveBall(Ball(x, MaxBallY, BallSpeed, BallSpeed, BallSize), left, right);
            r.y == MaxBallY + BallSpeed && r.dy == -BallSpeed
  {
  }

  /**
   Off the grid, the missing positional correction traps the ball at the
   top wall: from `y == 0` moving up, two steps later it is again at
   `y == 0` moving up, and so on for ever.
   */
  lemma TopWallTrap(x: int, left: Paddle, right: Paddle)
    requires 0 <= x <= ScreenWidth - BallSpeed
    requires !LeftPaddleHit(x, -BallSpeed, left) && !RightPaddleHit(x, -BallSpeed, right)
    requires !LeftPaddleHit(x + BallSpeed, 0, left) && !RightPaddleHit(x + BallSpeed, 0, right)
    ensures var b := Ball(x - BallSpeed, 0, BallSpeed, -BallSpeed, BallSize);
            MoveBall(MoveBall(b, left, right), left, right) == b.(x := x + BallSpeed)
  {
  }

  /** The left paddle at `(10, 250)` turns back a ball at `(20, 280)` moving left, whichever way it moves vertically. */
  lemma LeftPaddleExample(dy: int, left: Paddle, right: Paddle)
    requires left.x == 10 && left.y == 250
    requires right.x == ScreenWidth - 20
    requires Abs(dy) == BallSpeed
    ensures MoveBall(Ball(20, 280, -BallSpeed, dy, BallSize), left, right).dx == BallSpeed
  {
  }

  /**
   A ball that reaches `x == 775` beside the right paddle keeps passing the
   right-paddle test, so its `dx` flips on every frame and it shuffles
   between `x == 770` and `x == 775`, while it moves on vertically, for as
   long as the paddle overlaps it and no wall is hit.
   */
  lemma RightPaddleTrap(y: int, dy: int, left: Paddle, right: Paddle)
    requires right.x == ScreenWidth - 20 && left.x == 10
    requires Abs(dy) == BallSpeed
    requires RightPaddleHit(ScreenWidth - 25, y + dy, right) && RightPaddleHit(ScreenWidth - 30, y + 2 * dy, right)
    requires !WallHit(y + dy) && !WallHit(y + 2 * dy)
    ensures var b := Ball(ScreenWidth - 30, y, BallSpeed, dy, BallSize);
            var b1 := MoveBall(b, left, right);
            b1.x == ScreenWidth - 25 && b1.dx == -BallSpeed
            && MoveBall(b1, left, right) == b.(y := y + 2 * dy)
  {
  }

  /**
   The mirror image on the left: a ball that reaches `x == 15` beside the
   left paddle keeps passing the left-paddle test and shuffles between
   `x == 15` and `x == 20` while the paddle overlaps it and no wall is hit.
   */
  lemma LeftPaddleTrap(y: int, dy: int, left: Paddle, right: Paddle)
    requires left.x == 10 && right.x == ScreenWidth - 20
    requires Abs(dy) == BallSpeed
    requires LeftPaddleHit(15, y + dy, left) && LeftPaddleHit(20, y + 2 * dy, left)
    requires !WallHit(y + dy) && !WallHit(y + 2 * dy)
    ensures var b := Ball(20, y, -BallSpeed, dy, BallSize);
            var b1 := MoveBall(b, left, right);
            b1.x == 15 && b1.dx == BallSpeed
            && MoveBall(b1, left, right) == b.(y := y + 2 * dy)
  {
  }

  /** A ball that crosses the right wall is served from the centre, with each velocity sign kept. */
  lemma ServeExample(y: int, dy: int, left: Paddle, right: Paddle)
    requires Abs(dy) == BallSpeed
    requires !RightPaddleHit(ScreenWidth + 1 + BallSpeed, y + dy, right)
    requires !LeftPaddleHit(ScreenWidth + 1 + BallSpeed, y + dy, left)
    ensures var r := MoveBall(Ball(ScreenWidth + 1, y, BallSpeed, dy, BallSize), left, right);
            r.x == 395 && r.y == 295 && r.dx == BallSpeed && (r.dy > 0 <==> (WallHit(y + dy) <==> dy < 0))
  {
  }
}

=== FILE: input.dfy ===
/**
 The per-frame key mapping: a snapshot of the five keys the game reads
 turns into paddle moves, applied in a fixed order, and a quit request.
 */
module InputMapper {
  import opened Arena
  import opened Paddles

  /** Which of W, S, UP, DOWN and Q are held in this frame's keyboard snapshot. */
  datatype Keys = Keys(w: bool, s: bool, up: bool, down: bool, q: bool)

  datatype Side = Left | Right

  /** One request to move a paddle by one step of `PaddleSpeed` in `direction`. */
  datatype MoveRequest = MoveRequest(side: Side, direction: int)

  /** The position of a request's key in the order the keys are tested: W, S, UP, DOWN. */
  function Rank(req: MoveRequest): int {
    match req
    case MoveRequest(Left, d) => if d < 0 then 0 else 1
    case MoveRequest(Right, d) => if d < 0 then 2 else 3
  }

  /** The single request `MoveRequest(side, direction)` when `held`, none otherwise. */
  function Request(held: bool, side: Side, direction: int): seq<MoveRequest> {
    if held then [MoveRequest(side, direction)] else []
  }

  /** The move requests a snapshot stands for, in the order they are applied. */
  function Requests(k: Keys): (reqs: seq<MoveRequest>)
    ensures |reqs| <= 4
    ensures forall i :: 0 <= i < |reqs| ==> reqs[i].direction == -1 || reqs[i].direction == 1
    // requests come in the order W, S, UP, DOWN, each at most once
    ensures RankSorted(reqs)
  {
    JoinSorted(k);
    JoinDirections(k);
    PairRequests(k.w, k.s, Left) + PairRequests(k.up, k.down, Right)
  }

  /**
   The left keys' requests followed by the right keys' are rank-sorted.
   Proved apart from `Requests` so that its proof stays small for the solver.
   */
  lemma JoinSorted(k: Keys)
    ensures RankSorted(PairRequests(k.w, k.s, Left) + PairRequests(k.up, k.down, Right))
  {
  }

  /** The left keys' requests followed by the right keys' are all unit moves; kept apart from `Requests` like `JoinSorted`. */
  lemma JoinDirections(k: Keys)
    ensures var reqs := PairRequests(k.w, k.s, Left) + PairRequests(k.up, k.down, Right);
            forall i :: 0 <= i < |reqs| ==> reqs[i].direction == -1 || reqs[i].direction == 1
  {
  }

  /** A key's request is among a snapshot's requests exactly when that key is held. */
  lemma RequestsMembers(k: Keys)
    ensures MoveRequest(Left, -1) in Requests(k) <==> k.w
    ensures MoveRequest(Left, 1) in Requests(k) <==> k.s
    ensures MoveRequest(Right, -1) in Requests(k) <==> k.up
    ensures MoveRequest(Right, 1) in Requests(k) <==> k.down
  {
    PairMembers(k.w, k.s, Left);
    PairMembers(k.up, k.down, Right);
  }

  /** Ranks strictly increase along `reqs`. */
  predicate RankSorted(reqs: seq<MoveRequest>) {
    forall i, j :: 0 <= i < j < |reqs| ==> Rank(reqs[i]) < Rank(reqs[j])
  }

  /** The requests of one paddle's up and down keys: up first, then down. */
  function PairRequests(upHeld: bool, downHeld: bool, side: Side): (reqs: seq<MoveRequest>)
    ensures |reqs| <= 2
    ensures forall i :: 0 <= i < |reqs| ==> reqs[i].side == side && (reqs[i].direction == -1 || reqs[i].direction == 1)
    ensures RankSorted(reqs)
    ensures forall i :: 0 <= i < |reqs| ==> (Rank(reqs[i]) < 2 <==> side == Left)
  {
    Request(upHeld, side, -1) + Request(downHeld, side, 1)
  }

  /** The up request is among one paddle's requests exactly when its up key is held, and likewise for down. */
  lemma PairMembers(upHeld: bool, downHeld: bool, side: Side)
    ensures MoveRequest(side, -1) in PairRequests(upHeld, downHeld, side) <==> upHeld
    ensures MoveRequest(side, 1) in PairRequests(upHeld, downHeld, side) <==> downHeld
  {
  }

  /** Applies move requests in order to the pair of paddles. */
  function ApplyRequests(left: Paddle, right: Paddle, reqs: seq<MoveRequest>): (Paddle, Paddle)
    decreases |reqs|
  {
    if |reqs| == 0 then (left, right)
    else if reqs[0].side == Left then ApplyRequests(MovePaddle(left, reqs[0].direction), right, reqs[1..])
    else ApplyRequests(left, MovePaddle(right, reqs[0].direction), reqs[1..])
  }

  /** Moves `p` one step in `direction` when `held`, as one `if (key) move_paddle(...)` line does. */
  function MoveIfHeld(p: Paddle, held: bool, direction: int): Paddle {
    if held then MovePaddle(p, direction) else p
  }

  /**
   The paddle moves of one frame: W moves the left paddle up, then S moves
   it down, then UP moves the right paddle up, then DOWN moves it down.
   Opposite keys held together are not resolved; both moves happen, each
   clamped on its own.
   */
  function ApplyKeys(left: Paddle, right: Paddle, k: Keys): (r: (Paddle, Paddle))
    ensures r == ApplyRequests(left, right, Requests(k))
    ensures InBounds(left.y) ==> InBounds(r.0.y)
    ensures InBounds(right.y) ==> InBounds(r.1.y)
    ensures r.0.x == left.x && r.0.w == left.w && r.0.h == left.h
    ensures r.1.x == right.x && r.1.w == right.w && r.1.h == right.h
  {
    var l := MoveIfHeld(MoveIfHeld(left, k.w, -1), k.s, 1);
    var rt := MoveIfHeld(MoveIfHeld(right, k.up, -1), k.down, 1);
    ApplyRequestsSplit(left, right, k);
    (l, rt)
  }

  /** Applying the requests of a snapshot equals running the two paddles' key tests one after the other. */
  lemma ApplyRequestsSplit(left: Paddle, right: Paddle, k: Keys)
    ensures ApplyRequests(left, right, Requests(k))
            == (MoveIfHeld(MoveIfHeld(left, k.w, -1), k.s, 1), MoveIfHeld(MoveIfHeld(right, k.up, -1), k.down, 1))
  {
    ApplyPairs(left, right, k);
  }

  /** Applying the left pair's requests and then the right pair's runs the left key tests, then the right ones. */
  lemma ApplyPairs(left: Paddle, right: Paddle, k: Keys)
    ensures ApplyRequests(left, right, PairRequests(k.w, k.s, Left) + PairRequests(k.up, k.down, Right))
            == (MoveIfHeld(MoveIfHeld(left, k.w, -1), k.s, 1), MoveIfHeld(MoveIfHeld(right, k.up, -1), k.down, 1))
  {
    ApplyLeftPair(left, right, k.w, k.s, PairRequests(k.up, k.down, Right));
    ApplyRightPair(MoveIfHeld(MoveIfHeld(left, k.w, -1), k.s, 1), right, k.up, k.down);
  }

  /** Applying the left paddle's pair of optional requests and then `rest` is running its two key tests, then `rest`. */
  lemma ApplyLeftPair(left: Paddle, right: Paddle, upHeld: bool, downHeld: bool, rest: seq<MoveRequest>)
    ensures ApplyRequests(left, right, PairRequests(upHeld, downHeld, Left) + rest)
            == ApplyRequests(MoveIfHeld(MoveIfHeld(left, upHeld, -1), downHeld, 1), right, rest)
  {
    assert PairRequests(upHeld, downHeld, Left) + rest
           == Request(upHeld, Left, -1) + (Request(downHeld, Left, 1) + rest);
    ApplyHeldLeft(left, right, upHeld, -1, Request(downHeld, Left, 1) + rest);
    ApplyHeldLeft(MoveIfHeld(left, upHeld, -1), right, downHeld, 1, rest);
  }

  /** Applying the right paddle's pair of optional requests is running its two key tests. */
  lemma ApplyRightPair(left: Paddle, right: Paddle, upHeld: bool, downHeld: bool)
    ensures ApplyRequests(left, right, PairRequests(upHeld, downHeld, Right))
            == (left, MoveIfHeld(MoveIfHeld(right, upHeld, -1), downHeld, 1))
  {
    assert PairRequests(upHeld, downHeld, Right)
           == Request(upHeld, Right, -1) + (Request(downHeld, Right, 1) + []);
    ApplyHeldRight(left, right, upHeld, -1, Request(downHeld, Right, 1) + []);
    ApplyHeldRight(left, MoveIfHeld(right, upHeld, -1), downHeld, 1, []);
  }

  /** Applying an optional left request and then `rest` is moving the left paddle if the key is held, then `rest`. */
  lemma ApplyHeldLeft(left: Paddle, right: Paddle, held: bool, direction: int, rest: seq<MoveRequest>)
    ensures ApplyRequests(left, right, Request(held, Left, direction) + rest)
            == ApplyRequests(MoveIfHeld(left, held, direction), right, rest)
  {
    if held {
      assert (Request(held, Left, direction) + rest)[1..] == rest;
    } else {
      assert Request(held, Left, direction) + rest == rest;
    }
  }

  /** Applying an optional right request and then `rest` is moving the right paddle if the key is held, then `rest`. */
  lemma ApplyHeldRight(left: Paddle, right: Paddle, held: bool, direction: int, rest: seq<MoveRequest>)
    ensures ApplyRequests(left, right, Request(held, Right, direction) + rest)
            == ApplyRequests(left, MoveIfHeld(right, held, direction), rest)
  {
    if held {
      assert (Request(held, Right, direction) + rest)[1..] == rest;
    } else {
      assert Request(held, Right, direction) + rest == rest;
    }
  }

  /** The left-paddle keys never affect the right paddle, and the right-paddle keys never affect the left one. */
  lemma SidesIndependent(left: Paddle, right: Paddle, k: Keys, k': Keys)
    ensures k.up == k'.up && k.down == k'.down ==> ApplyKeys(left, right, k).1 == ApplyKeys(left, right, k').1
    ensures k.w == k'.w && k.s == k'.s ==> ApplyKeys(left, right, k).0 == ApplyKeys(left, right, k').0
  {
  }

  /**
   W and S held together: because each move is clamped before the next,
   a paddle at `y` in bounds ends at `max(y, 10)` rather than staying put,
   so one at the top wall is pushed down by one step.
   */
  lemma OpposedLeftKeys(left: Paddle, right: Paddle, k: Keys)
    requires InBounds(left.y)
    requires k.w && k.s
    ensures ApplyKeys(left, right, k).0.y == if left.y < PaddleSpeed then PaddleSpeed else left.y
  {
  }

  /**
   The order of the two tests matters: checking S before W would leave a
   paddle at the bottom wall one step higher, while the game's order leaves
   it where it is.
   */
  lemma OpposedKeysOrderMatters(p: Paddle)
    requires p.y == MaxPaddleY
    ensures MovePaddle(MovePaddle(p, -1), 1).y == MaxPaddleY
    ensures MovePaddle(MovePaddle(p, 1), -1).y == MaxPaddleY - PaddleSpeed
  {
  }
}

=== FILE: pacer.dfy ===
/**
 Frame pacing and frame-rate measurement. Tick values are milliseconds read
 from a wrapping 32-bit clock; they are passed in instead of read.
 */
module FramePacer {
  import opened Arena

  const TickModulus: int := 0x1_0000_0000

  /** A 32-bit unsigned tick count. */
  type Uint32 = x: int | 0 <= x < 0x1_0000_0000

  /** `now - since` in 32-bit unsigned arithmetic: it wraps round instead of going negative. */
  function Elapsed(now: Uint32, since: Uint32): (r: Uint32)
    ensures now >= since ==> r == now - since
    ensures now < since ==> r == now - since + TickModulus
  {
    (now - since) % TickModulus
  }

  /** Rate meter state: the published rate, frames in the current window, and when that window began. */
  datatype Pacer = Pacer(fps: int, frameCount: int, fpsTimer: Uint32)

  /** The state before the first frame: nothing counted, window opened at `start`. */
  function InitialPacer(start: Uint32): Pacer {
    Pacer(0, 0, start)
  }

  /** At least a full second has passed since the window opened. */
  predicate WindowClosed(p: Pacer, now: Uint32) {
    Elapsed(now, p.fpsTimer) >= 1000
  }

  /**
   Counts one completed frame. When the window has lasted a second, the
   count including this frame is published, the count restarts from zero,
   and the next window opens at `now`; otherwise the published rate stays.
   */
  function FpsTick(p: Pacer, now: Uint32): (r: Pacer)
    ensures WindowClosed(p, now) ==> r == Pacer(p.frameCount + 1, 0, now)
    ensures !WindowClosed(p, now) ==> r == Pacer(p.fps, p.frameCount + 1, p.fpsTimer)
  {
    var counted := p.frameCount + 1;
    if Elapsed(now, p.fpsTimer) >= 1000 then p.(fps := counted, frameCount := 0, fpsTimer := now)
    else p.(frameCount := counted)
  }

  /** Runs the rate meter over the tick read at the end of each of a sequence of frames. */
  function FpsRun(p: Pacer, ticks: seq<Uint32>): Pacer
    decreases |ticks|
  {
    if |ticks| == 0 then p else FpsRun(FpsTick(p, ticks[0]), ticks[1..])
  }

  /**
   A window that is still open with `p.frameCount` frames counted and
   closes on the last of `ticks` publishes `p.frameCount + |ticks|` as the
   rate, restarts the count from 0, and reopens at that last tick.
   */
  lemma {:induction false} FpsCountsWindow(p: Pacer, ticks: seq<Uint32>)
    requires |ticks| > 0
    requires forall i :: 0 <= i < |ticks| - 1 ==> Elapsed(ticks[i], p.fpsTimer) < 1000
    requires Elapsed(ticks[|ticks| - 1], p.fpsTimer) >= 1000
    ensures FpsRun(p, ticks) == Pacer(p.frameCount + |ticks|, 0, ticks[|ticks| - 1])
    decreases |ticks|
  {
    if |ticks| > 1 {
      var q := FpsTick(p, ticks[0]);
      assert q == p.(frameCount := p.frameCount + 1);
      forall i | 0 <= i < |ticks[1..]| - 1
        ensures Elapsed(ticks[1..][i], q.fpsTimer) < 1000
      {
        assert ticks[1..][i] == ticks[i + 1];
      }
      FpsCountsWindow(q, ticks[1..]);
    }
  }

  /**
   Sixty frames from a fresh meter whose sixtieth frame ends a second or
   more after the window opened publish a rate of 60 and restart the count.
   */
  lemma SixtyFramesPublishSixty(start: Uint32, ticks: seq<Uint32>)
    requires |ticks| == TargetFps
    requires forall i :: 0 <= i < |ticks| - 1 ==> Elapsed(ticks[i], start) < 1000
    requires Elapsed(ticks[|ticks| - 1], start) >= 1000
    ensures FpsRun(InitialPacer(start), ticks).fps == 60
    ensures FpsRun(InitialPacer(start), ticks).frameCount == 0
  {
    FpsCountsWindow(InitialPacer(start), ticks);
  }

  /** The result of the pacing check at the end of a frame. */
  datatype Delay = NoDelay | SleepFor(ms: int)

  /**
   Sleeps for the rest of the frame budget when the frame took less than
   `FrameDelayMs`; an overrun frame (including one the 32-bit clock wrapped
   during, which reads as a huge elapsed time) does not sleep at all.
   */
  function FrameDelay(frameStart: Uint32, now: Uint32): (r: Delay)
    ensures r.SleepFor? <==> Elapsed(now, frameStart) < FrameDelayMs
    ensures r.SleepFor? ==> 1 <= r.ms <= FrameDelayMs
    ensures r.SleepFor? ==> Elapsed(now, frameStart) + r.ms == FrameDelayMs
  {
    var frameTime := Elapsed(now, frameStart);
    if FrameDelayMs > frameTime then SleepFor(FrameDelayMs - frameTime) else NoDelay
  }

  /** The time a frame occupies once paced: its own duration, padded up to the budget. */
  function PacedDuration(frameStart: Uint32, now: Uint32): int {
    Elapsed(now, frameStart) + (match FrameDelay(frameStart, now) case NoDelay => 0 case SleepFor(ms) => ms)
  }

  /** A paced frame lasts the larger of its own duration and the frame budget. */
  lemma PacedDurationIsMax(frameStart: Uint32, now: Uint32)
    ensures PacedDuration(frameStart, now)
            == if Elapsed(now, frameStart) < FrameDelayMs then FrameDelayMs else Elapsed(now, frameStart)
  {
  }
}

=== FILE: paddles.dfy ===
/**
 Paddle motion: one vertical move by a signed multiple of the paddle speed,
 followed by a clamp into the arena.
 */
module Paddles {
  import opened Arena

  /** A paddle: `x` is fixed per side, `y` moves, `w` and `h` are its size. */
  datatype Paddle = Paddle(x: int, y: int, w: int, h: int)

  /** The range every paddle `y` is kept in after a move. */
  predicate InBounds(y: int) {
    0 <= y <= MaxPaddleY
  }

  /**
   Moves the paddle by `direction * PaddleSpeed` and clamps the result to
   `[0, MaxPaddleY]`. The upper clamp compares against the configured paddle
   height, not `p.h`. Any `direction` is accepted and scales linearly.
   */
  function MovePaddle(p: Paddle, direction: int): (r: Paddle)
    ensures r.x == p.x && r.w == p.w && r.h == p.h
    ensures InBounds(r.y)
    ensures InBounds(p.y + direction * PaddleSpeed) ==> r.y == p.y + direction * PaddleSpeed
    ensures p.y + direction * PaddleSpeed < 0 ==> r.y == 0
    ensures p.y + direction * PaddleSpeed > MaxPaddleY ==> r.y == MaxPaddleY
  {
    var moved := p.y + direction * PaddleSpeed;
    var floored := if moved < 0 then 0 else moved;
    var clamped := if floored + PaddleHeight > ScreenHeight then ScreenHeight - PaddleHeight else floored;
    p.(y := clamped)
  }

  /** Distance between two positions on one axis. */
  function Dist(a: int, b: int): nat {
    Abs(a - b)
  }

  /**
   The clamp picks the legal position nearest to the requested one: no `y`
   inside the arena is closer to `p.y + direction * PaddleSpeed`.
   */
  lemma MovePaddleIsNearest(p: Paddle, direction: int, z: int)
    requires InBounds(z)
    ensures Dist(MovePaddle(p, direction).y, p.y + direction * PaddleSpeed)
            <= Dist(z, p.y + direction * PaddleSpeed)
  {
  }

  /** Applies a sequence of moves, in order, to one paddle. */
  function MovePaddles(p: Paddle, directions: seq<int>): (r: Paddle)
    ensures r.x == p.x && r.w == p.w && r.h == p.h
    decreases |directions|
  {
    if |directions| == 0 then p
    else MovePaddles(MovePaddle(p, directions[0]), directions[1..])
  }

  /**
   After at least one move the paddle is inside the arena, whatever its
   starting position and whatever the directions; a paddle already inside
   stays inside through any sequence of moves, the empty one included.
   */
  lemma {:induction false} MovePaddlesInBounds(p: Paddle, directions: seq<int>)
    requires InBounds(p.y) || |directions| > 0
    ensures InBounds(MovePaddles(p, directions).y)
    decreases |directions|
  {
    if |directions| > 0 {
      MovePaddlesInBounds(MovePaddle(p, directions[0]), directions[1..]);
    }
  }

  /** A paddle on the top wall pushed upwards any number of times stays pinned at 0. */
  lemma {:induction false} PinnedAtTop(p: Paddle, n: nat)
    requires p.y == 0
    ensures MovePaddles(p, seq(n, _ => -1)).y == 0
    decreases n
  {
    if n > 0 {
      assert seq(n, _ => -1)[1..] == seq(n - 1, _ => -1);
      PinnedAtTop(MovePaddle(p, -1), n - 1);
    }
  }

  /** A paddle on the bottom wall pushed downwards any number of times stays pinned at `MaxPaddleY`. */
  lemma {:induction false} PinnedAtBottom(p: Paddle, n: nat)
    requires p.y == MaxPaddleY
    ensures MovePaddles(p, seq(n, _ => 1)).y == MaxPaddleY
    decreases n
  {
    if n > 0 {
      assert seq(n, _ => 1)[1..] == seq(n - 1, _ => 1);
      PinnedAtBottom(MovePaddle(p, 1), n - 1);
    }
  }
}

=== FILE: session.dfy ===
/**
 One iteration of the game loop and the loop itself: poll quit, move the
 paddles from the key snapshot, step the ball, count the frame, and work
 out the pacing delay; repeat while the session is running.
 */
module Session {
  import opened Arena
  import opened Paddles
  import opened BallPhysics
  import opened InputMapper
  import opened FramePacer

  /** Everything the loop owns: both paddles, the ball, the running flag and the rate meter. */
  datatype State = State(left: Paddle, right: Paddle, ball: Ball, running: bool, pacer: Pacer)

  /**
   What the outside world supplies to one frame: whether a window-close
   event was polled, the key snapshot, and the clock readings taken at the
   start of the frame, for the rate meter, and for the pacing check.
   */
  datatype FrameInput = FrameInput(quitEvent: bool, keys: Keys, frameStart: Uint32, countNow: Uint32, endNow: Uint32)

  /** The state a frame leaves behind and the sleep it asks for. */
  datatype Frame = Frame(next: State, delay: Delay)

  /** The frame's input asks to end the session: a window-close event or a held Q. */
  predicate Quits(input: FrameInput) {
    input.quitEvent || input.keys.q
  }

  /** The session as it stands before the first frame, with the rate window opened at `start`. */
  function Initial(start: Uint32): (s: State)
    ensures Valid(s) && s.running
  {
    State(
      Paddle(10, ScreenHeight / 2 - PaddleHeight / 2, PaddleWidth, PaddleHeight),
      Paddle(ScreenWidth - 20, ScreenHeight / 2 - PaddleHeight / 2, PaddleWidth, PaddleHeight),
      Ball(ScreenWidth / 2 - BallSize / 2, ScreenHeight / 2 - BallSize / 2, BallSpeed, BallSpeed, BallSize),
      true,
      InitialPacer(start))
  }

  /**
   The session invariant: the paddles sit at their sides with their
   configured size and inside the arena, the ball is on the serve grid
   with its configured size, and the rate meter's counts are not negative.
   */
  predicate Valid(s: State) {
    && s.left == Paddle(10, s.left.y, PaddleWidth, PaddleHeight)
    && s.right == Paddle(ScreenWidth - 20, s.right.y, PaddleWidth, PaddleHeight)
    && InBounds(s.left.y) && InBounds(s.right.y)
    && OnGrid(s.ball) && s.ball.size == BallSize
    && s.pacer.fps >= 0 && s.pacer.frameCount >= 0
  }

  /**
   One loop iteration. A polled quit event or a held Q clears the running
   flag, but the rest of the frame still happens: the paddles move, the
   ball steps against the moved paddles, and the frame is counted.
   */
  function Step(s: State, input: FrameInput): (r: Frame)
    ensures !r.next.running <==> !s.running || input.quitEvent || input.keys.q
    ensures (r.next.left, r.next.right) == ApplyKeys(s.left, s.right, input.keys)
    ensures r.next.ball == MoveBall(s.ball, r.next.left, r.next.right)
    ensures r.next.pacer == FpsTick(s.pacer, input.countNow)
    ensures r.delay == FrameDelay(input.frameStart, input.endNow)
    ensures r.next.pacer.frameCount == 0 || r.next.pacer.frameCount == s.pacer.frameCount + 1
    ensures r.delay.SleepFor? ==> 1 <= r.delay.ms <= FrameDelayMs
    ensures Valid(s) ==> Valid(r.next)
  {
    var polled := if input.quitEvent then false else s.running;
    var (left, right) := ApplyKeys(s.left, s.right, input.keys);
    var running := if input.keys.q then false else polled;
    var ball := MoveBall(s.ball, left, right);
    assert Valid(s) ==> OnGrid(ball) by {
      if Valid(s) {
        MoveBallKeepsGrid(s.ball, left, right);
      }
    }
    var pacer := FpsTick(s.pacer, input.countNow);
    Frame(State(left, right, ball, running, pacer), FrameDelay(input.frameStart, input.endNow))
  }

  /** Q clears the running flag and nothing else: the frame is otherwise the one without Q. */
  lemma QuitOnlyClearsRunning(s: State, input: FrameInput)
    requires input.keys.q
    ensures Step(s, input) == var f := Step(s, input.(keys := input.keys.(q := false)));
                              f.(next := f.next.(running := false))
  {
  }

  /** The loop: frames run one after another while the session is running and input lasts. */
  function Run(s: State, inputs: seq<FrameInput>): State
    decreases |inputs|
  {
    if !s.running || |inputs| == 0 then s
    else Run(Step(s, inputs[0]).next, inputs[1..])
  }

  /** Every state the loop reaches from a valid one is valid. */
  lemma {:induction false} RunPreservesValid(s: State, inputs: seq<FrameInput>)
    requires Valid(s)
    ensures Valid(Run(s, inputs))
    decreases |inputs|
  {
    if s.running && |inputs| > 0 {
      RunPreservesValid(Step(s, inputs[0]).next, inputs[1..]);
    }
  }

  /**
   A frame that polls a quit event or sees Q is the last one: the loop
   ends with that frame's state, in which the ball has still stepped.
   */
  lemma QuitEndsLoop(s: State, inputs: seq<FrameInput>)
    requires s.running && |inputs| > 0
    requires inputs[0].quitEvent || inputs[0].keys.q
    ensures Run(s, inputs) == Step(s, inputs[0]).next
    ensures !Run(s, inputs).running
  {
  }

  /** While no frame asks to quit, the loop runs every frame and is still running afterwards. */
  lemma {:induction false} RunWithoutQuit(s: State, inputs: seq<FrameInput>)
    requires s.running
    requires forall i :: 0 <= i < |inputs| ==> !inputs[i].quitEvent && !inputs[i].keys.q
    ensures Run(s, inputs).running
    decreases |inputs|
  {
    if |inputs| > 0 {
      RunWithoutQuit(Step(s, inputs[0]).next, inputs[1..]);
    }
  }

  /** The pacing result of each of a sequence of frames, in order. */
  function FrameDelays(inputs: seq<FrameInput>): (ds: seq<Delay>)
    ensures |ds| == |inputs|
    ensures forall i :: 0 <= i < |inputs| ==> ds[i] == FrameDelay(inputs[i].frameStart, inputs[i].endNow)
    decreases |inputs|
  {
    if |inputs| == 0 then []
    else FrameDelays(inputs[..|inputs| - 1]) + [FrameDelay(inputs[|inputs| - 1].frameStart, inputs[|inputs| - 1].endNow)]
  }

  /**
   What the loop knows after `frames` frames: it has reached the state `r`
   from which `Run` finishes as it does from `s`, every frame but the last
   let the session run on, the running flag reflects the last frame, and
   `delays` holds each frame's pacing result.
   */
  predicate Progress(s: State, inputs: seq<FrameInput>, r: State, frames: nat, delays: seq<Delay>) {
    && frames <= |inputs| && |delays| == frames
    && Run(r, inputs[frames..]) == Run(s, inputs)
    && (frames == 0 ==> r == s)
    && (!s.running ==> frames == 0)
    && (frames > 0 ==> (r.running <==> !Quits(inputs[frames - 1])))
    && (forall i :: 0 <= i < frames - 1 ==> !Quits(inputs[i]))
    && delays == FrameDelays(inputs[..frames])
  }

  /**
   Running one more frame, which leads to `next` and asks for delay `d`,
   from a running state keeps the loop's knowledge up to date.
   */
  lemma ProgressStep(s: State, inputs: seq<FrameInput>, r: State, frames: nat, delays: seq<Delay>, next: State, d: Delay)
    requires Progress(s, inputs, r, frames, delays)
    requires r.running && frames < |inputs|
    requires next.running <==> !Quits(inputs[frames])
    requires d == FrameDelay(inputs[frames].frameStart, inputs[frames].endNow)
    requires Run(r, inputs[frames..]) == Run(next, inputs[frames + 1..])
    ensures Progress(s, inputs, next, frames + 1, delays + [d])
  {
    // Dafny manages without this step, but with it the proof stays well inside the solver's budget
    FrameDelaysSnoc(inputs, frames);
  }

  /** The delays of one frame more are the delays so far followed by that frame's delay. */
  lemma FrameDelaysSnoc(inputs: seq<FrameInput>, n: nat)
    requires n < |inputs|
    ensures FrameDelays(inputs[..n + 1]) == FrameDelays(inputs[..n]) + [FrameDelay(inputs[n].frameStart, inputs[n].endNow)]
  {
  }

  /** When the loop stops, what it knows is what the loop promises its caller. */
  lemma ProgressDone(s: State, inputs: seq<FrameInput>, r: State, frames: nat, delays: seq<Delay>)
    requires Progress(s, inputs, r, frames, delays)
    requires !r.running || frames == |inputs|
    ensures r == Run(s, inputs)
    ensures r.running ==> frames == |inputs|
    ensures s.running ==> frames > 0 || |inputs| == 0
    ensures s.running && frames < |inputs| ==> frames > 0 && Quits(inputs[frames - 1])
    ensures forall i :: 0 <= i < frames ==> delays[i] == FrameDelay(inputs[i].frameStart, inputs[i].endNow)
  {
  }

  /** The body of the loop: run the next frame and keep the loop's knowledge up to date. */
  method RunFrame(s: State, inputs: seq<FrameInput>, r: State, frames: nat, delays: seq<Delay>) returns (next: State, d: Delay)
    requires Progress(s, inputs, r, frames, delays)
    requires r.running && frames < |inputs|
    ensures next == Step(r, inputs[frames]).next && d == Step(r, inputs[frames]).delay
    ensures Progress(s, inputs, next, frames + 1, delays + [d])
  {
    var f := Step(r, inputs[frames]);
    ProgressStep(s, inputs, r, frames, delays, f.next, f.delay);
    next, d := f.next, f.delay;
  }

  /**
   The game loop as written: repeat frames while running. Returns the final
   state, the number of frames run and the delay each frame asked for.
   */
  method RunSession(s: State, inputs: seq<FrameInput>) returns (r: State, frames: nat, delays: seq<Delay>)
    ensures r == Run(s, inputs)
    ensures Valid(s) ==> Valid(r)
    ensures frames <= |inputs| && |delays| == frames
    ensures r.running ==> frames == |inputs|
    ensures s.running ==> frames > 0 || |inputs| == 0
    ensures !s.running ==> frames == 0
    // the loop stops exactly after the first frame that asks to quit
    ensures forall i :: 0 <= i < frames - 1 ==> !Quits(inputs[i])
    ensures s.running && frames < |inputs| ==> frames > 0 && Quits(inputs[frames - 1])
    ensures forall i :: 0 <= i < frames ==> delays[i] == FrameDelay(inputs[i].frameStart, inputs[i].endNow)
  {
    r := s;
    frames := 0;
    delays := [];
    while r.running && frames < |inputs|
      invariant Progress(s, inputs, r, frames, delays)
      decreases |inputs| - frames
    {
      var next, d := RunFrame(s, inputs, r, frames, delays);
      r := next;
      delays := delays + [d];
      frames := frames + 1;
    }
    ProgressDone(s, inputs, r, frames, delays);
    if Valid(s) {
      RunPreservesValid(s, inputs);
    }
  }
}
